=== FILE: README.md ===
# User directory: verified model of the client-side data logic

The user directory is a React single-page app. It fetches a list of user
records from a JSON endpoint and caches them in a Redux slice. The home view
shows them as searchable, sortable cards, eight per page. A detail route
`/user/:id` shows one user and a map. A dark-mode flag is kept in
`localStorage`.

Almost all of the repository is markup. This project models the logic inside
it, as pure functions over immutable records and sequences:

- **Fetch lifecycle** (`user_slice.dfy`, module `UserSlice`). The `getUsers`
  thunk turns a network outcome into a `fulfilled` or `rejected` action. A
  non-OK response becomes the fixed message "Failed to fetch users". The
  reducer handles `pending`, `fulfilled` and `rejected` over
  `{list, loading, error}`. The initial state is `{[], false, null}`
  (`UserSlice.Initial`). `ReduceAll` replays a whole action history, and
  `ReduceAllState` proves it agrees with independent "latest action"
  definitions.
- **List view pipeline** (`home.dfy`, module `Home`). The pipeline filters
  by name, sorts by name and cuts one page of eight. It also chooses between
  the spinner, the error and the cards.
  - `toLowerCase` is an abstract parameter `fold`.
  - `localeCompare` is an abstract comparator `cmp`. Where order matters,
    `cmp` must be a consistent comparator in the sense of ECMA-262.
  - `String.prototype.includes` and `Array.prototype.filter`/`slice` are
    modelled exactly (`js_strings.dfy`, `js_arrays.dfy`). Strings here are
    sequences of Unicode scalar values, while JavaScript compares UTF-16
    code units; the two agree on every well-formed string, that is, one
    without lone surrogates.
  - `Array.prototype.sort` is a stable insertion sort (`stable_sort.dfy`).
    Section 23.1.3.30 of ECMA-262 (2023 edition) requires the sort to be
    stable. `StableSort.StableSortIsUnique` proves that every ordered, stable
    rearrangement equals this one, so the model does not depend on which
    algorithm the engine uses.
- **Detail resolver** (`user_detail.dfy`, module `UserDetail`). This is the
  lookup effect: `users.find(u => u.id === parseInt(id))`, run only when the
  list is non-empty. It also covers the map-centre state and the view
  selection. `parseInt` is modelled as ECMA-262 defines it for an undefined
  radix, with `NaN` as `None`: leading whitespace, sign, `0x` prefix, then
  the longest digit run.
- **Theme flag** (`theme_slice.dfy`, module `ThemeSlice`). The initial flag
  is read from storage, and `toggleDarkMode` writes its string form back.
  Storage is a `map<string, string>`.

Sequences are values in Dafny. So "sorting a spread copy leaves `users`
untouched" holds by construction, and no aliasing needs to be modelled.

Behaviour of the code worth knowing:

- The page count is `ceil(n / 8)`, which is 0 for an empty list.
  The current page is never clamped, so a page past the end is empty.
- The route id is a string that goes through `parseInt`. An id with no
  leading digits gives `NaN` and matches nobody. "Leading" means after any
  whitespace, one sign and an optional `0x` (`ParseIntNeedsDigit`).
  Anything after the leading digits is ignored, so `/user/3abc` selects
  user 3 (`ParseIntIgnoresRest`, `TrailingTextSelectsUser`).
- Coordinates are not validated. The centre simply becomes the found
  user's `geo`.
- A failed lookup keeps the previous map centre.
- With an empty list no lookup runs, so the previous selection stays
  (`EmptyRefetchKeepsSelection`). On a fresh mount with nothing cached that
  is "User not found!". After a lookup on a cached list it is the user
  found earlier, even when the refetch returns no users.
- The error field is tested by JavaScript truthiness, so an empty error
  message is shown as no error (`JsStrings.Truthy`).
- `fulfilled` leaves `error` as it was. It is `null` after a whole fetch
  only because `pending` cleared it.

## Model

| member | source | states |
|---|---|---|
| JsStrings.Includes | user-directory/src/components/Home.js:43 | `includes` is true exactly when the needle occurs in the name at some offset; the empty needle occurs everywhere |
| JsStrings.ParseIntOfDecimal | user-directory/src/components/UserDetail.js:37 | `parseInt` reads the decimal form of every integer back as that integer |
| JsStrings.ParseIntNeedsDigit | user-directory/src/components/UserDetail.js:37 | a route id without any decimal digit parses to `NaN` |
| JsStrings.ParseIntIgnoresRest | user-directory/src/components/UserDetail.js:37 | `parseInt` stops at the leading digits: an integer's decimal form followed by text that does not continue it (no digit, and no `x`/`X` after a lone `0`) reads as that integer |
| JsArrays.Slice | user-directory/src/components/Home.js:51-54 | `slice` never fails; its length is that of the clipped window `[from, to)`, 0 when the window is empty, and its elements are the input's from the clipped start on |
| StableSort.SortBy | user-directory/src/components/Home.js:46-48 | the sort returns a permutation of its input |
| StableSort.SortBySorted | user-directory/src/components/Home.js:46-48 | with a consistent comparator the result is ordered pairwise |
| StableSort.SortByStable | user-directory/src/components/Home.js:46-48 | every tie class keeps its input order |
| StableSort.StableSortIsUnique | user-directory/src/components/Home.js:46-48 | any ordered, stable rearrangement of the input equals the modelled sort |
| StableSort.FlippedSortIsReverse | user-directory/src/components/Home.js:47 | without ties, sorting with the swapped comparator gives the reverse |
| Home.FilterUsers | user-directory/src/components/Home.js:42-44 | a user is kept exactly when the folded search occurs in its folded name, and every occurrence of a kept user survives |
| Home.FilterUsersKeepsOrder | user-directory/src/components/Home.js:42-44 | filtering works piecewise on a concatenation, so relative order is kept |
| Home.EmptySearchKeepsAll | user-directory/src/components/Home.js:42-44 | the empty search keeps the whole list |
| Home.SortUsers | user-directory/src/components/Home.js:46 | the sorted list holds the same users as the filtered list |
| Home.SortUsersOrdered | user-directory/src/components/Home.js:46-48 | "asc" output is ordered by `cmp` on names, any other order by `cmp` with its arguments swapped |
| Home.SortUsersStable | user-directory/src/components/Home.js:46-48 | users whose names compare equal keep their input order, in both directions |
| Home.DescendingIsReversedAscending | user-directory/src/components/Home.js:47 | when no two users' names tie, descending output is ascending output reversed |
| Home.TotalPages | user-directory/src/components/Home.js:50 | the page count is the least number of 8-user pages holding the list, 0 when it is empty |
| Home.Page | user-directory/src/components/Home.js:51-54 | a page has at most 8 users, is the window `[(p-1)*8, p*8)` clipped to the list for `p >= 1`, and is empty past the last page |
| Home.PagesCoverAll | user-directory/src/components/Home.js:50-54 | pages 1 to `totalPages` concatenated give back the sorted list |
| Home.PageOfIndex | user-directory/src/components/Home.js:51-54 | the user at index `i` appears on page `i / 8 + 1` at slot `i % 8` |
| Home.ListView | user-directory/src/components/Home.js:42-54 | the visible page holds at most 8 users, all listed and all matching the search; the page is the window `[(p-1)*8, p*8)` of the sorted matches at the current page `p`; the page count is `ceil(m / 8)` for the `m` matching users; pages past the count are empty |
| Home.ListViewCoversAll | user-directory/src/components/Home.js:42-54 | paging through the view from page 1 to `totalPages` shows exactly the matching users in sorted order, each as often as it is listed |
| Home.RenderHome | user-directory/src/components/Home.js:56-78 | the spinner shows exactly while loading; the error exactly when not loading and the error is truthy; the cards otherwise |
| Home.FirstRenderAfterFetch | user-directory/src/components/Home.js:33-54 | after a successful fetch the initial query shows page 1 of all users in ascending order |
| UserSlice.Settle | user-directory/src/redux/userSlice.js:3-9 | a non-OK response rejects with "Failed to fetch users"; an OK response with a parsed body fulfils with it; a network error or a malformed body rejects with its own message; only an OK response fulfils |
| UserSlice.Reduce | user-directory/src/redux/userSlice.js:17-28 | loading is set exactly by `pending`; only `fulfilled` changes the list; `pending` clears the error, `rejected` sets it, `fulfilled` leaves it |
| UserSlice.FetchCycle | user-directory/src/redux/userSlice.js:3-28 | after pending and a settle loading is false; on success the state is the payload with no error; on a non-OK response the old list stays beside the failure message |
| UserSlice.ReduceAllState | user-directory/src/redux/userSlice.js:15-29 | after any action history the list is the latest payload, the error is the latest pending/rejected write, and loading holds exactly when the last action is pending |
| UserSlice.FromInitial | user-directory/src/redux/userSlice.js:13-28 | from the initial state the list is empty or some payload the server sent, and any error is some rejection's message |
| UserDetail.FindById | user-directory/src/components/UserDetail.js:37 | the result is the first user whose id equals the key, and absent exactly when none does |
| UserDetail.FindIsFirstOfFilter | user-directory/src/components/UserDetail.js:37 | `find` equals the head of `filter` on the same test |
| UserDetail.UnparsableIdFindsNobody | user-directory/src/components/UserDetail.js:37 | a route id that parses to `NaN` finds no user |
| UserDetail.Resolve | user-directory/src/components/UserDetail.js:35-47 | an empty list changes nothing; otherwise the selected user is the lookup's result; whenever a user is found the centre is set to that user's location, and otherwise it keeps its previous value |
| UserDetail.CenterFollowsFoundUser | user-directory/src/components/UserDetail.js:28-44 | from the initial state the centre keeps its initial value exactly when no user is found, and is the found user's location otherwise |
| UserDetail.LinkSelectsUser | user-directory/src/components/Home.js:222 | with unique ids and a safe-integer id, following a card's `/user/${id}` link selects that card's user |
| UserDetail.TrailingTextSelectsUser | user-directory/src/components/UserDetail.js:35-38 | with unique ids, a route id made of a user's id followed by text that does not continue the number selects that user |
| UserDetail.RenderDetail | user-directory/src/components/UserDetail.js:53-211 | spinner while loading, then a truthy error, then the selected user's profile, and "User not found!" otherwise |
| UserDetail.DetailAfterFetch | user-directory/src/components/UserDetail.js:35-73 | after a successful fetch of a non-empty list a profile shows exactly when some user has the parsed id, centred on that user; otherwise "User not found!" |
| UserDetail.EmptyRefetchKeepsSelection | user-directory/src/components/UserDetail.js:31-47 | a refetch that fulfils with no users leaves the previous selection on screen: the earlier profile with its centre, or "User not found!" when nothing was selected |
| ThemeSlice.InitialThemeReadsStore | user-directory/src/redux/themeSlice.js:5 | a flag stored as `String(b)` reads back as `b` whatever else is stored; a missing key, or any other string, reads as off |
| ThemeSlice.ToggleDarkMode | user-directory/src/redux/themeSlice.js:12-16 | the flag is negated, its string form is stored under `darkMode`, and no other key changes |
| ThemeSlice.ReloadAfterToggle | user-directory/src/redux/themeSlice.js:5-15 | reading storage after a toggle gives back the toggled flag |
| ThemeSlice.ToggleTwice | user-directory/src/redux/themeSlice.js:12-15 | two toggles restore the flag, and storage then agrees with it |

## Left out

- The network request and `response.json()` are not modelled. The model starts from their abstract outcome: a network error with its message, a non-OK response, or an OK response whose body parsed or failed to parse.
- A body that parses as something other than an array of user records is not modelled: the payload is always a sequence of users.
- Serialisation of thrown values that are not `Error` objects is not modelled; every rejection carries a message string.
- Each view dispatching `getUsers` on mount, and state updates after unmount, are left out. They concern asynchronous scheduling, not the sequential logic.
- `parseFloat` of `geo.lat`/`geo.lng` and the Leaflet map are left out because they involve floating point. The centre records which `geo` it came from.
- `localeCompare` (ECMA-402) and Unicode `toLowerCase` are abstract parameters. Ordering results assume `cmp` is a consistent comparator. `EmptySearchKeepsAll` assumes `fold("") == ""`.
- JsStrings.IntToString: ids are JavaScript Numbers, modelled as unbounded integers. Only the safe-integer range (|n| <= 2^53 - 1) is meaningful, and `LinkSelectsUser` is stated for it; `${n}` switches to exponent form from 10^21 on, which is not modelled.
- JsStrings.ParseInt: results are exact integers. The float rounding of numbers above 2^53 is not modelled, and `-0` is identified with `0` (they are equal under `===`).
- UserDetail.DetailAfterFetch: the detail view is described once the lookup effect has run. The render before it, which still shows the previous `user` (initially `null`, so "User not found!" for one frame), is not modelled, since it concerns React's effect scheduling.
- `localStorage` is a plain map. Its quota and availability errors are left out.
- React/MUI markup, `App.js` routing and palette choice, `NotFound.js` and the `store.js` wiring are left out: they are declarative, with no logic to prove.
- A current page below 1 is handled by the modelled `slice` semantics. The pagination control never produces one, so no property is stated for it.

=== FILE: home.dfy ===
/** The list view: the derivation of the visible page from the cached user
    list (filter by name, sort by name, cut one page) and the choice between
    spinner, error and card grid. Case folding and locale comparison are
    parameters: `fold` stands for `toLowerCase`, `cmp` for `localeCompare`. */
module Home {
  import opened Wrappers
  import opened Users
  import opened JsArrays
  import opened JsStrings
  import opened StableSort
  import opened UserSlice

  /** `itemsPerPage`. */
  const ItemsPerPage: nat := 8

  /** The view's local state: search text, sort order ("asc" or otherwise
      descending) and the unclamped current page. */
  datatype Query = Query(search: string, sortOrder: string, currentPage: int)

  /** `useState("")`, `useState("asc")`, `useState(1)`. */
  const InitialQuery: Query := Query("", "asc", 1)

  /** What one derivation yields: the visible page and the page count. */
  datatype Listing = Listing(page: seq<User>, totalPages: nat)

  /** What the view renders. */
  datatype HomeScreen = Spinner | ErrorMessage(message: string) | Cards(listing: Listing)

  /** The filter's test: the folded search text occurs in the folded name. */
  predicate NameMatches(fold: string -> string, search: string, u: User) {
    Includes(fold(u.name), fold(search))
  }

  /** `users.filter(...)`: exactly the users whose name matches, every
      occurrence kept, none added. */
  function FilterUsers(users: seq<User>, search: string, fold: string -> string): (r: seq<User>)
    ensures forall u :: u in r <==> u in users && NameMatches(fold, search, u)
    ensures forall u :: multiset(r)[u] == if NameMatches(fold, search, u) then multiset(users)[u] else 0
  {
    var p := u => NameMatches(fold, search, u);
    FilterFacts(p, users);
    Filter(p, users)
  }

  lemma FilterFacts(p: User -> bool, s: seq<User>)
    ensures forall u :: u in Filter(p, s) <==> u in s && p(u)
    ensures forall u :: multiset(Filter(p, s))[u] == if p(u) then multiset(s)[u] else 0
  {
    forall u
      ensures u in Filter(p, s) <==> u in s && p(u)
      ensures multiset(Filter(p, s))[u] == if p(u) then multiset(s)[u] else 0
    {
      FilterMembers(p, s, u);
      FilterCount(p, s, u);
    }
  }

  /** Filtering keeps relative order: it works piecewise on a concatenation. */
  lemma FilterUsersKeepsOrder(a: seq<User>, b: seq<User>, search: string, fold: string -> string)
    ensures FilterUsers(a + b, search, fold) == FilterUsers(a, search, fold) + FilterUsers(b, search, fold)
  {
    FilterConcat(u => NameMatches(fold, search, u), a, b);
  }

  /** An empty search keeps the whole list, as long as folding leaves the
      empty string empty. */
  lemma EmptySearchKeepsAll(users: seq<User>, fold: string -> string)
    requires fold("") == ""
    ensures FilterUsers(users, "", fold) == users
  {
    var p := u => NameMatches(fold, "", u);
    forall i | 0 <= i < |users|
      ensures p(users[i])
    {
      assert OccursAt(fold(users[i].name), "", 0);
    }
    FilterAll(p, users);
  }

  /** `a.name.localeCompare(b.name)`. */
  function ByName(cmp: Comparator<string>): Comparator<User> {
    (a: User, b: User) => cmp(a.name, b.name)
  }

  /** The comparator the sort call passes: by name for "asc", with the
      arguments swapped for any other order. */
  function OrderFor(sortOrder: string, cmp: Comparator<string>): Comparator<User> {
    if sortOrder == "asc" then ByName(cmp) else Flipped(ByName(cmp))
  }

  /** `[...filtered].sort(...)`: a new sequence holding the same users. The
      argument itself is a value and so cannot be changed by the call. */
  function SortUsers(users: seq<User>, sortOrder: string, cmp: Comparator<string>): (r: seq<User>)
    ensures multiset(r) == multiset(users)
  {
    SortBy(OrderFor(sortOrder, cmp), users)
  }

  lemma ByNameConsistent(cmp: Comparator<string>)
    requires Consistent(cmp)
    ensures Consistent(ByName(cmp))
  {
    forall a: User, b: User, d: User | ByName(cmp)(a, b) <= 0 && ByName(cmp)(b, d) <= 0
      ensures ByName(cmp)(a, d) <= 0
    {
      Transitive(cmp, a.name, b.name, d.name);
    }
    forall a: User, b: User
      ensures ByName(cmp)(a, b) < 0 <==> ByName(cmp)(b, a) > 0
    {
      assert cmp(a.name, b.name) < 0 <==> cmp(b.name, a.name) > 0;
    }
  }

  lemma OrderConsistent(sortOrder: string, cmp: Comparator<string>)
    requires Consistent(cmp)
    ensures Consistent(OrderFor(sortOrder, cmp))
  {
    ByNameConsistent(cmp);
    if sortOrder != "asc" {
      FlippedConsistent(ByName(cmp));
    }
  }

  /** Ascending output is ordered by `cmp`; descending output by `cmp` with
      its arguments swapped. */
  lemma SortUsersOrdered(users: seq<User>, sortOrder: string, cmp: Comparator<string>)
    requires Consistent(cmp)
    ensures var r := SortUsers(users, sortOrder, cmp);
      forall i, j :: 0 <= i < j < |r| ==>
        if sortOrder == "asc" then cmp(r[i].name, r[j].name) <= 0 else cmp(r[j].name, r[i].name) <= 0
  {
    OrderConsistent(sortOrder, cmp);
    SortBySorted(OrderFor(sortOrder, cmp), users);
  }

  /** Stability: users with equal names keep their input order, in both
      directions. */
  lemma SortUsersStable(users: seq<User>, sortOrder: string, cmp: Comparator<string>, y: User)
    requires Consistent(cmp)
    ensures Filter(TiesWith(ByName(cmp), y), SortUsers(users, sortOrder, cmp))
         == Filter(TiesWith(ByName(cmp), y), users)
  {
    var c := OrderFor(sortOrder, cmp);
    var r := SortUsers(users, sortOrder, cmp);
    OrderConsistent(sortOrder, cmp);
    SortByStableAt(c, users, y);
    forall u: User
      ensures TiesWith(c, y)(u) == TiesWith(ByName(cmp), y)(u)
    {
      Flip(cmp, u.name, y.name);
    }
    FilterAgree(TiesWith(c, y), TiesWith(ByName(cmp), y), r);
    FilterAgree(TiesWith(c, y), TiesWith(ByName(cmp), y), users);
  }

  /** With no name ties, descending order is ascending order reversed. */
  lemma DescendingIsReversedAscending(users: seq<User>, sortOrder: string, cmp: Comparator<string>)
    requires Consistent(cmp)
    requires TieFree(ByName(cmp), users)
    requires sortOrder != "asc"
    ensures SortUsers(users, sortOrder, cmp) == Reverse(SortUsers(users, "asc", cmp))
  {
    ByNameConsistent(cmp);
    FlippedSortIsReverse(ByName(cmp), users);
  }

  /** `Math.ceil(n / itemsPerPage)`: the fewest pages holding `n` users, so
      0 for an empty list. */
  function TotalPages(n: nat): (r: nat)
    ensures r * ItemsPerPage >= n
    ensures r == 0 || (r - 1) * ItemsPerPage < n
    ensures r == 0 <==> n == 0
  {
    (n + ItemsPerPage - 1) / ItemsPerPage
  }

  /** `sorted.slice((currentPage - 1) * 8, currentPage * 8)`. */
  function Page(sorted: seq<User>, currentPage: int): (r: seq<User>)
    ensures |r| <= ItemsPerPage
    ensures currentPage > TotalPages(|sorted|) ==> r == []
    ensures currentPage >= 1 ==>
      var lo := (currentPage - 1) * ItemsPerPage;
      var hi := currentPage * ItemsPerPage;
      r == sorted[(if lo < |sorted| then lo else |sorted|)..(if hi < |sorted| then hi else |sorted|)]
  {
    Slice(sorted, (currentPage - 1) * ItemsPerPage, currentPage * ItemsPerPage)
  }

  /** Pages 1 to `k`, one after the other. */
  function PagesUpTo(sorted: seq<User>, k: nat): seq<User> {
    if k == 0 then [] else PagesUpTo(sorted, k - 1) + Page(sorted, k)
  }

  lemma {:induction false} PagesUpToPrefix(sorted: seq<User>, k: nat)
    ensures PagesUpTo(sorted, k) == sorted[..if k * ItemsPerPage < |sorted| then k * ItemsPerPage else |sorted|]
  {
    if k > 0 {
      PagesUpToPrefix(sorted, k - 1);
    }
  }

  /** The pages partition the sorted list: read in order, pages 1 to
      `totalPages` give back the whole list. */
  lemma PagesCoverAll(sorted: seq<User>)
    ensures PagesUpTo(sorted, TotalPages(|sorted|)) == sorted
  {
    PagesUpToPrefix(sorted, TotalPages(|sorted|));
  }

  /** The user at index `i` is shown on page `i / 8 + 1`, at slot `i % 8`. */
  lemma PageOfIndex(sorted: seq<User>, i: nat)
    requires i < |sorted|
    ensures var p := Page(sorted, i / ItemsPerPage + 1);
      i % ItemsPerPage < |p| && p[i % ItemsPerPage] == sorted[i]
  {
  }

  /** The derivation the view recomputes on every render. */
  function ListView(users: seq<User>, q: Query, fold: string -> string, cmp: Comparator<string>): (r: Listing)
    ensures |r.page| <= ItemsPerPage
    ensures forall u :: u in r.page ==> u in users && NameMatches(fold, q.search, u)
    ensures r.totalPages == TotalPages(|FilterUsers(users, q.search, fold)|)
    ensures r.page == Page(SortUsers(FilterUsers(users, q.search, fold), q.sortOrder, cmp), q.currentPage)
    ensures q.currentPage > r.totalPages ==> r.page == []
  {
    var sorted := SortUsers(FilterUsers(users, q.search, fold), q.sortOrder, cmp);
    var page := Page(sorted, q.currentPage);
    assert forall u :: u in page ==> u in multiset(sorted);
    Listing(page, TotalPages(|sorted|))
  }

  /** The pages `view(1)` to `view(k)`, one after the other. */
  function PagesThrough(view: int -> seq<User>, k: nat): seq<User> {
    if k == 0 then [] else PagesThrough(view, k - 1) + view(k)
  }

  lemma {:induction false} PagesThroughAgree(view: int -> seq<User>, sorted: seq<User>, k: nat)
    requires forall p :: 1 <= p <= k ==> view(p) == Page(sorted, p)
    ensures PagesThrough(view, k) == PagesUpTo(sorted, k)
  {
    if k > 0 {
      PagesThroughAgree(view, sorted, k - 1);
    }
  }

  /** The page the view shows for each current page, with `q`'s search and
      sort order. */
  function ViewPage(users: seq<User>, q: Query, fold: string -> string, cmp: Comparator<string>): int -> seq<User> {
    p => ListView(users, q.(currentPage := p), fold, cmp).page
  }

  /** Paging through the view: pages 1 to `totalPages`, read in order, are
      the matching users sorted, so every matching user is shown exactly as
      often as it is listed and no other user is shown. */
  lemma ListViewCoversAll(users: seq<User>, q: Query, fold: string -> string, cmp: Comparator<string>)
    ensures var all := PagesThrough(ViewPage(users, q, fold, cmp), ListView(users, q, fold, cmp).totalPages);
      && all == SortUsers(FilterUsers(users, q.search, fold), q.sortOrder, cmp)
      && forall u :: multiset(all)[u] == if NameMatches(fold, q.search, u) then multiset(users)[u] else 0
  {
    var sorted := SortUsers(FilterUsers(users, q.search, fold), q.sortOrder, cmp);
    var n := TotalPages(|sorted|);
    forall p | 1 <= p <= n
      ensures ViewPage(users, q, fold, cmp)(p) == Page(sorted, p)
    {
    }
    PagesThroughAgree(ViewPage(users, q, fold, cmp), sorted, n);
    PagesCoverAll(sorted);
  }

  /** Render precedence: the spinner while loading, whatever the error; the
      error only when not loading and the error is truthy; the cards
      otherwise. */
  function RenderHome(s: UsersState, q: Query, fold: string -> string, cmp: Comparator<string>): (v: HomeScreen)
    ensures v.Spinner? <==> s.loading
    ensures v.ErrorMessage? <==> !s.loading && Truthy(s.error)
    ensures v.ErrorMessage? ==> Some(v.message) == s.error
    ensures v.Cards? ==> v.listing == ListView(s.list, q, fold, cmp)
  {
    if s.loading then Spinner
    else if Truthy(s.error) then ErrorMessage(s.error.value)
    else Cards(ListView(s.list, q, fold, cmp))
  }

  /** On first render after a successful fetch, page 1 of all users is
      shown in ascending order, provided folding keeps "" empty. */
  lemma FirstRenderAfterFetch(s: UsersState, users: seq<User>, fold: string -> string, cmp: Comparator<string>)
    requires fold("") == ""
    ensures var v := RenderHome(FetchCycle(s, Responded(true, Parsed(users))), InitialQuery, fold, cmp);
      v == Cards(Listing(Page(SortUsers(users, "asc", cmp), 1), TotalPages(|users|)))
  {
    EmptySearchKeepsAll(users, fold);
  }
}

=== FILE: js_arrays.dfy ===
/** The two `Array.prototype` operations the list view relies on, `filter`
    and `slice`, over immutable sequences. */
module JsArrays {

  /** `Array.prototype.filter`: the elements satisfying `p`, in their
      original order. */
  function Filter<T>(p: T -> bool, s: seq<T>): (r: seq<T>)
    ensures |r| <= |s|
  {
    if |s| == 0 then []
    else (if p(s[0]) then [s[0]] else []) + Filter(p, s[1..])
  }

  /** An element survives the filter exactly when it occurs and satisfies `p`. */
  lemma {:induction false} FilterMembers<T>(p: T -> bool, s: seq<T>, x: T)
    ensures x in Filter(p, s) <==> x in s && p(x)
  {
    if |s| > 0 {
      FilterMembers(p, s[1..], x);
      assert s == [s[0]] + s[1..];
    }
  }

  /** Filtering keeps every occurrence of a kept element and drops every
      occurrence of a rejected one. */
  lemma {:induction false} FilterCount<T>(p: T -> bool, s: seq<T>, x: T)
    ensures multiset(Filter(p, s))[x] == if p(x) then multiset(s)[x] else 0
  {
    if |s| > 0 {
      FilterCount(p, s[1..], x);
      assert s == [s[0]] + s[1..];
    }
  }

  /** Filtering distributes over concatenation, so relative order is kept. */
  lemma {:induction false} FilterConcat<T>(p: T -> bool, a: seq<T>, b: seq<T>)
    ensures Filter(p, a + b) == Filter(p, a) + Filter(p, b)
  {
    if |a| == 0 {
      assert a + b == b;
    } else {
      var head := if p(a[0]) then [a[0]] else [];
      assert (a + b)[0] == a[0] && (a + b)[1..] == a[1..] + b;
      assert Filter(p, a + b) == head + Filter(p, a[1..] + b);
      FilterConcat(p, a[1..], b);
      assert Filter(p, a) == head + Filter(p, a[1..]);
    }
  }

  /** One filtering step: the head is kept exactly when it satisfies `p`. */
  lemma FilterCons<T>(p: T -> bool, h: T, t: seq<T>)
    ensures Filter(p, [h] + t) == (if p(h) then [h] else []) + Filter(p, t)
  {
    assert ([h] + t)[1..] == t;
  }

  /** Moving `x` past `h` does not change a filter that keeps at most one
      of them. */
  lemma FilterSwap<T>(p: T -> bool, x: T, h: T, rest: seq<T>, t: seq<T>)
    requires !(p(x) && p(h))
    requires Filter(p, rest) == Filter(p, [x] + t)
    ensures Filter(p, [h] + rest) == Filter(p, [x] + ([h] + t))
  {
    FilterCons(p, h, rest);
    FilterCons(p, x, t);
    FilterCons(p, h, t);
    FilterCons(p, x, [h] + t);
  }

  /** A predicate every element satisfies keeps the whole sequence. */
  lemma {:induction false} FilterAll<T>(p: T -> bool, s: seq<T>)
    requires forall i :: 0 <= i < |s| ==> p(s[i])
    ensures Filter(p, s) == s
  {
    if |s| > 0 {
      FilterAll(p, s[1..]);
    }
  }

  /** The offset `Array.prototype.slice` derives from a relative index:
      negative indices count back from the end, and both ends clip to the
      length. */
  function RelativeIndex(k: int, len: nat): (r: nat)
    ensures r <= len
    ensures 0 <= k ==> r == if k < len then k else len
    ensures k < 0 ==> r == if len + k < 0 then 0 else len + k
  {
    if k < 0 then (if len + k < 0 then 0 else len + k)
    else if k < len then k else len
  }

  /** `Array.prototype.slice(start, end)`: never fails, and yields the empty
      sequence when the clipped window is empty. */
  function Slice<T>(s: seq<T>, start: int, end: int): (r: seq<T>)
    ensures 0 <= start <= end ==> |r| <= end - start
    ensures RelativeIndex(start, |s|) + |r| <= |s|
    ensures |r| == 0 <==> RelativeIndex(end, |s|) <= RelativeIndex(start, |s|)
    ensures |r| == if RelativeIndex(start, |s|) < RelativeIndex(end, |s|)
                   then RelativeIndex(end, |s|) - RelativeIndex(start, |s|) else 0
    ensures forall i :: 0 <= i < |r| ==> r[i] == s[RelativeIndex(start, |s|) + i]
  {
    var from := RelativeIndex(start, |s|);
    var to := RelativeIndex(end, |s|);
    if from < to then s[from..to] else []
  }

  /** Two predicates that agree on every element filter alike. */
  lemma {:induction false} FilterAgree<T>(p: T -> bool, q: T -> bool, s: seq<T>)
    requires forall i :: 0 <= i < |s| ==> p(s[i]) == q(s[i])
    ensures Filter(p, s) == Filter(q, s)
  {
    if |s| > 0 {
      FilterAgree(p, q, s[1..]);
    }
  }
}

=== FILE: js_strings.dfy ===
/** The string built-ins the views call: `String.prototype.includes`, the
    global `parseInt` with no radix argument, and the decimal form a number
    takes inside a template literal. */
module JsStrings {
  import opened Wrappers

  /** `needle` occurs in `hay` at offset `i`. */
  ghost predicate OccursAt(hay: string, needle: string, i: int) {
    0 <= i && i + |needle| <= |hay| && hay[i..i + |needle|] == needle
  }

  lemma OccursShift(hay: string, needle: string, i: int)
    requires |hay| > 0 && 0 <= i
    ensures OccursAt(hay[1..], needle, i) <==> OccursAt(hay, needle, i + 1)
  {
    if 0 <= i && i + |needle| <= |hay| - 1 {
      assert hay[1..][i..i + |needle|] == hay[i + 1..i + 1 + |needle|];
    }
  }

  /** `hay.includes(needle)`: true exactly when `needle` occurs somewhere in
      `hay`; the empty string occurs everywhere. */
  function Includes(hay: string, needle: string): (r: bool)
    ensures r <==> exists i :: OccursAt(hay, needle, i)
    decreases |hay|
  {
    if needle <= hay then
      assert OccursAt(hay, needle, 0);
      true
    else if |hay| == 0 then
      false
    else
      IncludesStep(hay, needle);
      Includes(hay[1..], needle)
  }

  /** When `needle` is not a prefix of `hay`, it occurs in `hay` exactly when
      it occurs in `hay` without its first character. */
  lemma IncludesStep(hay: string, needle: string)
    requires |hay| > 0 && !(needle <= hay)
    ensures (exists i :: OccursAt(hay, needle, i)) <==> (exists i :: OccursAt(hay[1..], needle, i))
  {
    forall i | OccursAt(hay, needle, i)
      ensures OccursAt(hay[1..], needle, i - 1)
    {
      assert i != 0;
      OccursShift(hay, needle, i - 1);
    }
    forall i | OccursAt(hay[1..], needle, i)
      ensures OccursAt(hay, needle, i + 1)
    {
      OccursShift(hay, needle, i);
    }
  }

  /** ECMA-262's WhiteSpace and LineTerminator code points, which `parseInt`
      skips before the number: TAB, LF, VT, FF, CR, the BOM and every
      space separator (Zs) of Unicode 15, plus LINE and PARAGRAPH SEPARATOR. */
  const Whitespace: set<char> := {
    '\t', '\n', '\U{000B}', '\U{000C}', '\r', ' ', '\U{00A0}', '\U{1680}',
    '\U{2000}', '\U{2001}', '\U{2002}', '\U{2003}', '\U{2004}', '\U{2005}',
    '\U{2006}', '\U{2007}', '\U{2008}', '\U{2009}', '\U{200A}', '\U{2028}',
    '\U{2029}', '\U{202F}', '\U{205F}', '\U{3000}', '\U{FEFF}'
  }

  predicate IsSpace(ch: char) {
    ch in Whitespace
  }

  /** The input with its leading whitespace removed. */
  function TrimStart(s: string): (r: string)
    ensures |r| <= |s| && r == s[|s| - |r|..]
    ensures |r| > 0 ==> !IsSpace(r[0])
    ensures forall i :: 0 <= i < |s| - |r| ==> IsSpace(s[i])
  {
    if |s| > 0 && IsSpace(s[0]) then
      var r := TrimStart(s[1..]);
      assert forall i :: 1 <= i < |s| - |r| ==> s[i] == s[1..][i - 1];
      r
    else s
  }

  /** The value ECMA-262 gives a digit character: 0-9, then the letters a-z
      (either case) as 10-35; 36 for anything else, a digit in no radix. */
  function DigitValue(ch: char): (d: nat)
    ensures d <= 36
    ensures d < 10 <==> '0' <= ch <= '9'
  {
    if '0' <= ch <= '9' then ch as int - '0' as int
    else if 'a' <= ch <= 'z' then ch as int - 'a' as int + 10
    else if 'A' <= ch <= 'Z' then ch as int - 'A' as int + 10
    else 36
  }

  /** The length of the longest prefix of `s` made of radix-`radix` digits. */
  function DigitRun(s: string, radix: nat): (n: nat)
    ensures n <= |s|
    ensures forall i :: 0 <= i < n ==> DigitValue(s[i]) < radix
    ensures n < |s| ==> DigitValue(s[n]) >= radix
  {
    if |s| > 0 && DigitValue(s[0]) < radix then 1 + DigitRun(s[1..], radix) else 0
  }

  /** The number a run of digits denotes, most significant digit first. */
  function DigitsValue(ds: string, radix: nat): nat {
    if |ds| == 0 then 0
    else DigitsValue(ds[..|ds| - 1], radix) * radix + DigitValue(ds[|ds| - 1])
  }

  /** A leading `-` makes the result negative; one leading `+` or `-` is
      dropped. */
  function StripSign(s: string): (r: (bool, string))
    ensures r.0 <==> |s| > 0 && s[0] == '-'
    ensures r.1 == s || (|s| > 0 && r.1 == s[1..] && (s[0] == '+' || s[0] == '-'))
  {
    if |s| > 0 && (s[0] == '-' || s[0] == '+') then (s[0] == '-', s[1..]) else (false, s)
  }

  /** With no radix given, a `0x` or `0X` prefix selects radix 16 and is
      dropped; otherwise the radix is 10. */
  function StripRadixPrefix(u: string): (r: (nat, string))
    ensures r.0 == 10 || r.0 == 16
    ensures r.0 == 16 <==> |u| >= 2 && u[0] == '0' && (u[1] == 'x' || u[1] == 'X')
    ensures r.1 == if r.0 == 16 then u[2..] else u
  {
    if |u| >= 2 && u[0] == '0' && (u[1] == 'x' || u[1] == 'X') then (16, u[2..]) else (10, u)
  }

  /** `parseInt(input)` with the radix left undefined: skip leading
      whitespace, take one optional sign, switch to radix 16 after a `0x` or
      `0X` prefix, then read the longest run of digits. An empty run is `NaN`,
      modelled as `None`. (`-0` is the integer 0, which compares equal to `0`
      under `===` just as `-0` does.) */
  function ParseInt(input: string): (r: Option<int>)
  {
    var signed := StripSign(TrimStart(input));
    match ParseMagnitude(signed.1)
    case None => None
    case Some(m) => Some(if signed.0 then -(m as int) else m)
  }

  /** The unsigned part: radix prefix, then the longest digit run. */
  function ParseMagnitude(u: string): (r: Option<nat>)
  {
    var prefixed := StripRadixPrefix(u);
    var radix, body := prefixed.0, prefixed.1;
    var n := DigitRun(body, radix);
    if n == 0 then None else Some(DigitsValue(body[..n], radix))
  }

  /** The decimal digits of `n`, without leading zeros. */
  function Decimal(n: nat): (s: string)
    ensures |s| > 0
    ensures forall i :: 0 <= i < |s| ==> '0' <= s[i] <= '9'
    ensures |s| > 1 ==> s[0] != '0'
  {
    var last := [('0' as int + n % 10) as char];
    if n < 10 then last else Decimal(n / 10) + last
  }

  /** The decimal form of an integer. `${n}` produces it for a Number holding
      an integer below 10^21 in magnitude; larger ones print in exponent form. */
  function IntToString(n: int): string {
    if n < 0 then "-" + Decimal(-n) else Decimal(n)
  }

  lemma {:induction false} DecimalValue(n: nat)
    ensures DigitsValue(Decimal(n), 10) == n
  {
    var s := Decimal(n);
    if n >= 10 {
      DecimalValue(n / 10);
      assert s[..|s| - 1] == Decimal(n / 10);
    }
  }

  /** Decimal digits only. */
  predicate AllDecimal(digits: string) {
    forall i :: 0 <= i < |digits| ==> '0' <= digits[i] <= '9'
  }

  /** A run of decimal digits, possibly after a minus, reads back as its
      value with the sign applied. */
  lemma ParseIntOfDigits(negative: bool, digits: string, text: string)
    requires |digits| > 0 && AllDecimal(digits)
    requires text == if negative then "-" + digits else digits
    ensures ParseInt(text) == Some(if negative then -(DigitsValue(digits, 10) as int) else DigitsValue(digits, 10))
  {
    SignedText(negative, digits, text);
    MagnitudeOfDigits(digits);
    ParseIntStages(text, negative, digits, DigitsValue(digits, 10));
  }

  lemma SignedText(negative: bool, digits: string, text: string)
    requires |digits| > 0 && '0' <= digits[0] <= '9'
    requires text == if negative then "-" + digits else digits
    ensures StripSign(TrimStart(text)) == (negative, digits)
  {
    NoLeadingSpace(text);
    if negative {
      assert text[1..] == digits;
    }
  }

  lemma ParseIntStages(text: string, negative: bool, u: string, m: nat)
    requires StripSign(TrimStart(text)) == (negative, u)
    requires ParseMagnitude(u) == Some(m)
    ensures ParseInt(text) == Some(if negative then -(m as int) else m)
  {
  }

  lemma MagnitudeOfDigits(digits: string)
    requires |digits| > 0 && AllDecimal(digits)
    ensures ParseMagnitude(digits) == Some(DigitsValue(digits, 10))
  {
    assert StripRadixPrefix(digits) == (10, digits);
    DigitRunWhole(digits, 10);
    assert digits[..|digits|] == digits;
  }

  lemma NoLeadingSpace(s: string)
    requires |s| > 0 && (s[0] == '-' || '0' <= s[0] <= '9')
    ensures TrimStart(s) == s
  {
    assert !IsSpace(s[0]);
  }

  lemma {:induction false} DigitRunWhole(s: string, radix: nat)
    requires forall i :: 0 <= i < |s| ==> DigitValue(s[i]) < radix
    ensures DigitRun(s, radix) == |s|
  {
    if |s| > 0 {
      DigitRunWhole(s[1..], radix);
    }
  }

  /** `parseInt` reads back the decimal form of every integer. */
  lemma ParseIntOfDecimal(n: int)
    ensures ParseInt(IntToString(n)) == Some(n)
  {
    var m := if n < 0 then -n else n;
    DecimalValue(m);
    ParseIntOfDigits(n < 0, Decimal(m), IntToString(n));
  }

  /** `parseInt` stops at the first character that is not a digit: the
      decimal form of `n` followed by anything that does not continue it (a
      decimal digit, or for `0` an `x`/`X` that would make it a hex prefix)
      still reads as `n`. */
  lemma {:induction false} ParseIntIgnoresRest(n: int, rest: string)
    requires |rest| > 0 ==> !('0' <= rest[0] <= '9')
    requires n == 0 && |rest| > 0 ==> rest[0] != 'x' && rest[0] != 'X'
    ensures ParseInt(IntToString(n) + rest) == Some(n)
  {
    var m := if n < 0 then -n else n;
    DecimalValue(m);
    DecimalLeadingZero(m);
    ParseIntOfDigitsThen(n < 0, Decimal(m), rest, IntToString(n) + rest);
  }

  lemma {:induction false} ParseIntOfDigitsThen(negative: bool, digits: string, rest: string, text: string)
    requires |digits| > 0 && AllDecimal(digits)
    requires digits[0] == '0' ==> digits == "0"
    requires |rest| > 0 ==> !('0' <= rest[0] <= '9')
    requires digits == "0" && |rest| > 0 ==> rest[0] != 'x' && rest[0] != 'X'
    requires text == (if negative then "-" + digits else digits) + rest
    ensures ParseInt(text) == Some(if negative then -(DigitsValue(digits, 10) as int) else DigitsValue(digits, 10))
  {
    SignedTextThen(negative, digits, rest, text);
    MagnitudeStopsAtRest(digits, rest);
    ParseIntStages(text, negative, digits + rest, DigitsValue(digits, 10));
  }

  lemma {:induction false} SignedTextThen(negative: bool, digits: string, rest: string, text: string)
    requires |digits| > 0 && '0' <= digits[0] <= '9'
    requires text == (if negative then "-" + digits else digits) + rest
    ensures StripSign(TrimStart(text)) == (negative, digits + rest)
  {
    if negative {
      MinusThenRest(digits, rest);
    }
    SignedText(negative, digits + rest, text);
  }

  lemma MinusThenRest(digits: string, rest: string)
    ensures ("-" + digits) + rest == "-" + (digits + rest)
  {
    var a, b := ("-" + digits) + rest, "-" + (digits + rest);
    assert |a| == |b|;
    forall i | 0 <= i < |a|
      ensures a[i] == b[i]
    {
      if i == 0 {
      } else if i <= |digits| {
        assert a[i] == digits[i - 1] == b[i];
      } else {
        assert a[i] == rest[i - 1 - |digits|] == b[i];
      }
    }
  }

  /** Only the decimal form of 0 starts with `0`. */
  lemma DecimalLeadingZero(m: nat)
    ensures Decimal(m)[0] == '0' ==> m == 0 && Decimal(m) == "0"
  {
    if m >= 10 {
      assert |Decimal(m)| > 1;
    }
  }

  lemma {:induction false} MagnitudeStopsAtRest(digits: string, rest: string)
    requires |digits| > 0 && AllDecimal(digits)
    requires |rest| > 0 ==> !('0' <= rest[0] <= '9')
    requires digits == "0" && |rest| > 0 ==> rest[0] != 'x' && rest[0] != 'X'
    requires digits[0] == '0' ==> digits == "0"
    ensures ParseMagnitude(digits + rest) == Some(DigitsValue(digits, 10))
  {
    var u := digits + rest;
    if |u| >= 2 && u[0] == '0' {
      assert digits == "0" && u[1] == rest[0];
    }
    assert StripRadixPrefix(u) == (10, u);
    DigitRunStops(u, |digits|);
    assert u[..|digits|] == digits;
  }

  lemma {:induction false} DigitRunStops(s: string, k: nat)
    requires k <= |s|
    requires forall i :: 0 <= i < k ==> '0' <= s[i] <= '9'
    requires k < |s| ==> !('0' <= s[k] <= '9')
    ensures DigitRun(s, 10) == k
  {
    if k > 0 {
      DigitRunStops(s[1..], k - 1);
    }
  }

  /** Input without a single decimal digit reads as `NaN`: even a hex
      number needs the `0` of its prefix. */
  lemma ParseIntNeedsDigit(input: string)
    requires forall k :: 0 <= k < |input| ==> !('0' <= input[k] <= '9')
    ensures ParseInt(input) == None
  {
    var t := TrimStart(input);
    var u := StripSign(t).1;
    if |u| > 0 {
      var j := |t| - |u|;
      assert u == t[j..];
      assert u[0] == t[j] == input[|input| - |t| + j];
    }
    assert StripRadixPrefix(u) == (10, u);
    assert ParseMagnitude(u) == None;
  }

  /** JavaScript truthiness of a string-or-null value: `null` and the empty
      string are falsy. */
  predicate Truthy(v: Option<string>) {
    v.Some? && v.value != ""
  }
}

=== FILE: stable_sort.dfy ===
/** `Array.prototype.sort(comparefn)` over an immutable sequence. Section
    23.1.3.30 of ECMA-262 (2023 edition) requires the sort to be stable and,
    for a consistent comparator, the result to be ordered by it. The model is
    an insertion sort; `StableSortIsUnique` shows that every stable ordered
    permutation coincides with it, so nothing depends on the algorithm. */
module StableSort {
  import opened JsArrays

  /** A comparator in the sense of ECMA-262: a negative answer means "before",
      zero "tie", positive "after". */
  type Comparator<!T> = (T, T) -> int

  /** ECMA-262's "consistent comparator": the sign flips with the arguments
      and "not after" is transitive. Reflexivity (`c(a, a) == 0`) follows. */
  ghost predicate Consistent<T(!new)>(c: Comparator<T>) {
    && (forall a, b :: c(a, b) < 0 <==> c(b, a) > 0)
    && (forall a, b, d :: c(a, b) <= 0 && c(b, d) <= 0 ==> c(a, d) <= 0)
  }

  /** Every earlier element is "not after" every later one. */
  ghost predicate Sorted<T>(c: Comparator<T>, s: seq<T>) {
    forall i, j :: 0 <= i < j < |s| ==> c(s[i], s[j]) <= 0
  }

  /** The elements tying with `y` under `c`. */
  function TiesWith<T>(c: Comparator<T>, y: T): T -> bool {
    x => c(x, y) == 0
  }

  /** Stability: for every tie class, the elements of that class appear in
      `r` in the same order as in `s`. */
  ghost predicate StableWrt<T(!new)>(c: Comparator<T>, s: seq<T>, r: seq<T>) {
    forall y :: Filter(TiesWith(c, y), r) == Filter(TiesWith(c, y), s)
  }

  /** Inserts `x` in front of the first element it is not after. */
  function Insert<T>(c: Comparator<T>, x: T, s: seq<T>): (r: seq<T>)
    ensures multiset(r) == multiset(s) + multiset{x}
  {
    if |s| == 0 then [x]
    else if c(x, s[0]) <= 0 then [x] + s
    else
      assert s == [s[0]] + s[1..];
      [s[0]] + Insert(c, x, s[1..])
  }

  /** The sort: each element is inserted ahead of the sorted rest, so it lands
      in front of the later elements it ties with. */
  function SortBy<T>(c: Comparator<T>, s: seq<T>): (r: seq<T>)
    ensures multiset(r) == multiset(s)
    ensures |r| == |s|
  {
    if |s| == 0 then []
    else
      assert s == [s[0]] + s[1..];
      Insert(c, s[0], SortBy(c, s[1..]))
  }

  lemma Reflexive<T(!new)>(c: Comparator<T>, a: T)
    requires Consistent(c)
    ensures c(a, a) == 0
  {
    assert c(a, a) < 0 <==> c(a, a) > 0;
  }

  /** The two facts about a consistent comparator the proofs use. */
  lemma Flip<T(!new)>(c: Comparator<T>, a: T, b: T)
    requires Consistent(c)
    ensures c(a, b) > 0 ==> c(b, a) < 0
    ensures c(a, b) == 0 ==> c(b, a) == 0
  {
    assert c(a, b) < 0 <==> c(b, a) > 0;
    assert c(b, a) < 0 <==> c(a, b) > 0;
  }

  lemma Transitive<T(!new)>(c: Comparator<T>, a: T, b: T, d: T)
    requires Consistent(c)
    requires c(a, b) <= 0 && c(b, d) <= 0
    ensures c(a, d) <= 0
  {
  }

  /** A head "not after" every element of a sorted tail gives a sorted sequence. */
  lemma SortedCons<T>(c: Comparator<T>, h: T, t: seq<T>)
    requires Sorted(c, t)
    requires forall k :: 0 <= k < |t| ==> c(h, t[k]) <= 0
    ensures Sorted(c, [h] + t)
  {
    var r := [h] + t;
    forall i, j | 0 <= i < j < |r|
      ensures c(r[i], r[j]) <= 0
    {
      if i > 0 {
        assert r[i] == t[i - 1] && r[j] == t[j - 1];
      } else {
        assert r[j] == t[j - 1];
      }
    }
  }

  lemma {:induction false} InsertSorted<T(!new)>(c: Comparator<T>, x: T, s: seq<T>)
    requires Consistent(c)
    requires Sorted(c, s)
    ensures Sorted(c, Insert(c, x, s))
  {
    if |s| == 0 {
    } else if c(x, s[0]) <= 0 {
      forall k | 0 <= k < |s|
        ensures c(x, s[k]) <= 0
      {
        if k > 0 {
          Transitive(c, x, s[0], s[k]);
        }
      }
      SortedCons(c, x, s);
    } else {
      var u := s[1..];
      assert Sorted(c, u) by {
        forall i, j | 0 <= i < j < |u|
          ensures c(u[i], u[j]) <= 0
        {
          assert u[i] == s[i + 1] && u[j] == s[j + 1];
        }
      }
      InsertSorted(c, x, u);
      var t := Insert(c, x, u);
      Flip(c, x, s[0]);
      forall k | 0 <= k < |t|
        ensures c(s[0], t[k]) <= 0
      {
        assert t[k] in multiset(t);
        if t[k] != x {
          assert t[k] in multiset(u);
          var m :| 0 <= m < |u| && u[m] == t[k];
          assert s[1 + m] == t[k];
        }
      }
      SortedCons(c, s[0], t);
    }
  }

  /** For a consistent comparator the result is ordered. */
  lemma {:induction false} SortBySorted<T(!new)>(c: Comparator<T>, s: seq<T>)
    requires Consistent(c)
    ensures Sorted(c, SortBy(c, s))
  {
    if |s| > 0 {
      SortBySorted(c, s[1..]);
      InsertSorted(c, s[0], SortBy(c, s[1..]));
    }
  }

  /** Two elements tying with a third tie with each other. */
  lemma TiesShareClass<T(!new)>(c: Comparator<T>, a: T, b: T, y: T)
    requires Consistent(c)
    requires c(a, y) == 0 && c(b, y) == 0
    ensures c(a, b) == 0
  {
    Flip(c, b, y);
    Transitive(c, a, y, b);
    Flip(c, a, y);
    Transitive(c, b, y, a);
    Flip(c, b, a);
  }

  /** Inserting `x` only jumps over elements strictly before it, none of which
      ties with anything `x` ties with. */
  lemma {:induction false} InsertStable<T(!new)>(c: Comparator<T>, x: T, s: seq<T>, y: T)
    requires Consistent(c)
    ensures Filter(TiesWith(c, y), Insert(c, x, s)) == Filter(TiesWith(c, y), [x] + s)
  {
    var p := TiesWith(c, y);
    if |s| > 0 && c(x, s[0]) > 0 {
      var h, t := s[0], s[1..];
      InsertStable(c, x, t, y);
      if p(x) && p(h) {
        TiesShareClass(c, x, h, y);
        assert false;
      }
      assert [h] + t == s;
      FilterSwap(p, x, h, Insert(c, x, t), t);
    }
  }

  /** The sort is stable. */
  lemma {:induction false} SortByStable<T(!new)>(c: Comparator<T>, s: seq<T>)
    requires Consistent(c)
    ensures StableWrt(c, s, SortBy(c, s))
  {
    forall y
      ensures Filter(TiesWith(c, y), SortBy(c, s)) == Filter(TiesWith(c, y), s)
    {
      SortByStableAt(c, s, y);
    }
  }

  lemma {:induction false} SortByStableAt<T(!new)>(c: Comparator<T>, s: seq<T>, y: T)
    requires Consistent(c)
    ensures Filter(TiesWith(c, y), SortBy(c, s)) == Filter(TiesWith(c, y), s)
  {
    if |s| > 0 {
      var p := TiesWith(c, y);
      SortByStableAt(c, s[1..], y);
      InsertStable(c, s[0], SortBy(c, s[1..]), y);
      FilterCons(p, s[0], SortBy(c, s[1..]));
      FilterCons(p, s[0], s[1..]);
      assert [s[0]] + s[1..] == s;
    }
  }

  /** Sorted and stable together determine the result: two sequences ordered
      by `c` that agree on every tie class are equal. */
  lemma {:induction false} SortedStableUnique<T(!new)>(c: Comparator<T>, a: seq<T>, b: seq<T>)
    requires Consistent(c)
    requires Sorted(c, a) && Sorted(c, b)
    requires forall y :: Filter(TiesWith(c, y), a) == Filter(TiesWith(c, y), b)
    ensures a == b
  {
    if |a| == 0 || |b| == 0 {
      if |a| > 0 {
        HeadInOwnClass(c, a);
      } else if |b| > 0 {
        HeadInOwnClass(c, b);
      }
    } else {
      LeaderNotAfter(c, a, b);
      LeaderNotAfter(c, b, a);
      LeadersEqual(c, a, b);
      var a', b' := a[1..], b[1..];
      forall y
        ensures Filter(TiesWith(c, y), a') == Filter(TiesWith(c, y), b')
      {
        TailsAgree(TiesWith(c, y), a, b);
      }
      SortedSuffix(c, a);
      SortedSuffix(c, b);
      SortedStableUnique(c, a', b');
      assert a == [a[0]] + a' && b == [b[0]] + b';
    }
  }

  /** If `a`'s leader's tie class is the same in `b`, that leader occurs in
      `b`, so `b`'s leader is not after it. */
  lemma LeaderNotAfter<T(!new)>(c: Comparator<T>, a: seq<T>, b: seq<T>)
    requires Consistent(c)
    requires Sorted(c, b) && |a| > 0 && |b| > 0
    requires Filter(TiesWith(c, a[0]), a) == Filter(TiesWith(c, a[0]), b)
    ensures c(b[0], a[0]) <= 0
  {
    HeadInOwnClass(c, a);
    var f := Filter(TiesWith(c, a[0]), b);
    assert f[0] == a[0];
    FilterMembers(TiesWith(c, a[0]), b, a[0]);
    var k :| 0 <= k < |b| && b[k] == a[0];
    if k == 0 { Reflexive(c, a[0]); }
  }

  /** Leaders that tie and agree on their tie class are the same element. */
  lemma LeadersEqual<T(!new)>(c: Comparator<T>, a: seq<T>, b: seq<T>)
    requires Consistent(c)
    requires |a| > 0 && |b| > 0
    requires c(a[0], b[0]) <= 0 && c(b[0], a[0]) <= 0
    requires Filter(TiesWith(c, a[0]), a) == Filter(TiesWith(c, a[0]), b)
    ensures a[0] == b[0]
  {
    var p := TiesWith(c, a[0]);
    Flip(c, a[0], b[0]);
    HeadInOwnClass(c, a);
    assert p(b[0]);
    FilterCons(p, b[0], b[1..]);
    assert [b[0]] + b[1..] == b;
    assert Filter(p, b)[0] == b[0];
    assert Filter(p, a)[0] == a[0];
  }

  lemma TailsAgree<T>(p: T -> bool, a: seq<T>, b: seq<T>)
    requires |a| > 0 && |b| > 0 && a[0] == b[0]
    requires Filter(p, a) == Filter(p, b)
    ensures Filter(p, a[1..]) == Filter(p, b[1..])
  {
    var lead := if p(a[0]) then [a[0]] else [];
    FilterCons(p, a[0], a[1..]);
    FilterCons(p, b[0], b[1..]);
    assert [a[0]] + a[1..] == a && [b[0]] + b[1..] == b;
    assert Filter(p, a[1..]) == Filter(p, a)[|lead|..];
    assert Filter(p, b[1..]) == Filter(p, b)[|lead|..];
  }

  /** The head of a non-empty sequence leads its own tie class. */
  lemma HeadInOwnClass<T(!new)>(c: Comparator<T>, s: seq<T>)
    requires Consistent(c)
    requires |s| > 0
    ensures Filter(TiesWith(c, s[0]), s) == [s[0]] + Filter(TiesWith(c, s[0]), s[1..])
  {
    Reflexive(c, s[0]);
    FilterCons(TiesWith(c, s[0]), s[0], s[1..]);
    assert [s[0]] + s[1..] == s;
  }

  lemma SortedSuffix<T>(c: Comparator<T>, s: seq<T>)
    requires Sorted(c, s) && |s| > 0
    ensures Sorted(c, s[1..])
  {
    var u := s[1..];
    forall i, j | 0 <= i < j < |u|
      ensures c(u[i], u[j]) <= 0
    {
      assert u[i] == s[i + 1] && u[j] == s[j + 1];
    }
  }

  /** Any ordered, stable rearrangement of `s` is exactly what `SortBy`
      returns, so the model agrees with every conforming implementation. */
  lemma StableSortIsUnique<T(!new)>(c: Comparator<T>, s: seq<T>, r: seq<T>)
    requires Consistent(c)
    requires Sorted(c, r) && StableWrt(c, s, r)
    ensures r == SortBy(c, s)
  {
    SortBySorted(c, s);
    SortByStable(c, s);
    SortedStableUnique(c, r, SortBy(c, s));
  }

  /** No two different elements of `s` tie. */
  ghost predicate TieFree<T(!new)>(c: Comparator<T>, s: seq<T>) {
    forall x, y :: x in s && y in s && c(x, y) == 0 ==> x == y
  }

  /** Without ties, a sorted arrangement of a multiset is unique. */
  lemma {:induction false} SortedPermutationUnique<T(!new)>(c: Comparator<T>, a: seq<T>, b: seq<T>)
    requires Consistent(c)
    requires Sorted(c, a) && Sorted(c, b)
    requires multiset(a) == multiset(b)
    requires TieFree(c, a)
    ensures a == b
  {
    if |a| == 0 {
      assert |b| == |multiset(b)|;
    } else {
      assert |b| == |multiset(b)|;
      PermutedLeadersEqual(c, a, b);
      TailsPermuted(a, b);
      SortedSuffix(c, a);
      SortedSuffix(c, b);
      TieFreeSuffix(c, a);
      SortedPermutationUnique(c, a[1..], b[1..]);
    }
  }

  lemma TailsPermuted<T>(a: seq<T>, b: seq<T>)
    requires |a| > 0 && |b| > 0 && a[0] == b[0]
    requires multiset(a) == multiset(b)
    ensures multiset(a[1..]) == multiset(b[1..])
  {
    assert a == [a[0]] + a[1..] && b == [b[0]] + b[1..];
    assert multiset(a[1..]) == multiset(a) - multiset{a[0]};
    assert multiset(b[1..]) == multiset(b) - multiset{b[0]};
  }

  /** Sorted permutations of a tie-free sequence start with the same element. */
  lemma PermutedLeadersEqual<T(!new)>(c: Comparator<T>, a: seq<T>, b: seq<T>)
    requires Consistent(c)
    requires Sorted(c, a) && Sorted(c, b)
    requires multiset(a) == multiset(b)
    requires TieFree(c, a)
    requires |a| > 0 && |b| > 0
    ensures a[0] == b[0]
  {
    var a0, b0 := a[0], b[0];
    assert a0 in multiset(b);
    assert b0 in multiset(a);
    assert c(a0, b0) <= 0 by {
      var k :| 0 <= k < |a| && a[k] == b0;
      if k == 0 { Reflexive(c, a0); }
    }
    assert c(b0, a0) <= 0 by {
      var k :| 0 <= k < |b| && b[k] == a0;
      if k == 0 { Reflexive(c, a0); }
    }
    Flip(c, a0, b0);
  }

  lemma TieFreeSuffix<T(!new)>(c: Comparator<T>, s: seq<T>)
    requires TieFree(c, s) && |s| > 0
    ensures TieFree(c, s[1..])
  {
    forall x, y | x in s[1..] && y in s[1..] && c(x, y) == 0
      ensures x == y
    {
      assert x in s && y in s;
    }
  }

  /** The comparator with its arguments swapped, as the descending sort uses. */
  function Flipped<T>(c: Comparator<T>): Comparator<T> {
    (a, b) => c(b, a)
  }

  lemma FlippedConsistent<T(!new)>(c: Comparator<T>)
    requires Consistent(c)
    ensures Consistent(Flipped(c))
  {
    forall a, b, d | Flipped(c)(a, b) <= 0 && Flipped(c)(b, d) <= 0
      ensures Flipped(c)(a, d) <= 0
    {
      Transitive(c, d, b, a);
    }
  }

  /** The sequence read back to front. */
  function Reverse<T>(s: seq<T>): (r: seq<T>)
    ensures |r| == |s|
    ensures forall i :: 0 <= i < |s| ==> r[i] == s[|s| - 1 - i]
  {
    if |s| == 0 then [] else Reverse(s[1..]) + [s[0]]
  }

  lemma {:induction false} ReversePermutes<T>(s: seq<T>)
    ensures multiset(Reverse(s)) == multiset(s)
  {
    if |s| > 0 {
      ReversePermutes(s[1..]);
      assert s == [s[0]] + s[1..];
    }
  }

  /** Read backwards, a sequence sorted by `c` is sorted by the flipped comparator. */
  lemma ReverseSorted<T>(c: Comparator<T>, s: seq<T>)
    requires Sorted(c, s)
    ensures Sorted(Flipped(c), Reverse(s))
  {
    var r := Reverse(s);
    forall i, j | 0 <= i < j < |r|
      ensures Flipped(c)(r[i], r[j]) <= 0
    {
      assert r[i] == s[|s| - 1 - i] && r[j] == s[|s| - 1 - j];
    }
  }

  /** Without ties, sorting with the flipped comparator reverses the sort. */
  lemma FlippedSortIsReverse<T(!new)>(c: Comparator<T>, s: seq<T>)
    requires Consistent(c)
    requires TieFree(c, s)
    ensures SortBy(Flipped(c), s) == Reverse(SortBy(c, s))
  {
    var up, down := SortBy(c, s), SortBy(Flipped(c), s);
    SortBySorted(c, s);
    FlippedConsistent(c);
    SortBySorted(Flipped(c), s);
    ReverseSorted(c, up);
    ReversePermutes(up);
    FlippedTieFree(c, s, down);
    SortedPermutationUnique(Flipped(c), down, Reverse(up));
  }

  /** A permutation of a tie-free sequence is tie-free under the flipped
      comparator too. */
  lemma FlippedTieFree<T(!new)>(c: Comparator<T>, s: seq<T>, r: seq<T>)
    requires Consistent(c)
    requires TieFree(c, s) && multiset(r) == multiset(s)
    ensures TieFree(Flipped(c), r)
  {
    forall x, y | x in r && y in r && Flipped(c)(x, y) == 0
      ensures x == y
    {
      assert x in multiset(s) && y in multiset(s);
      Flip(c, y, x);
    }
  }
}

=== FILE: theme_slice.dfy ===
/** The `theme` slice: a dark-mode flag read from, and written back to, a
    string-valued key/value store. */
module ThemeSlice {

  /** The browser store, as the map from keys to the strings stored under them. */
  type Storage = map<string, string>

  const DarkModeKey: string := "darkMode"

  datatype ThemeState = ThemeState(darkMode: bool)

  /** `String(b)`, the form `setItem` stores a boolean in. */
  function BoolToString(b: bool): string {
    if b then "true" else "false"
  }

  /** The flag is on exactly when the stored value is the string "true"; a
      missing key (`getItem` returns `null`) or any other string reads as off. */
  function InitialTheme(storage: Storage): (t: ThemeState)
    ensures t.darkMode <==> DarkModeKey in storage && storage[DarkModeKey] == "true"
    ensures DarkModeKey !in storage ==> !t.darkMode
  {
    ThemeState(DarkModeKey in storage && storage[DarkModeKey] == "true")
  }

  /** `toggleDarkMode`: negate the flag and store its string form. */
  function ToggleDarkMode(t: ThemeState, storage: Storage): (r: (ThemeState, Storage))
    ensures r.0.darkMode == !t.darkMode
    ensures DarkModeKey in r.1 && r.1[DarkModeKey] == BoolToString(r.0.darkMode)
    ensures r.1.Keys == storage.Keys + {DarkModeKey}
    ensures forall k :: k in storage && k != DarkModeKey ==> r.1[k] == storage[k]
  {
    var flag := !t.darkMode;
    (ThemeState(flag), storage[DarkModeKey := BoolToString(flag)])
  }

  /** Reading back the stored string gives the flag that was stored. */
  lemma BoolStringRoundTrip(b: bool)
    ensures (BoolToString(b) == "true") == b
  {
  }

  /** The initial flag as a function of the store: a flag saved with
      `String(b)` reads back as `b`, whatever else the store holds; with the
      key removed, or holding any string but "true", the flag is off. */
  lemma InitialThemeReadsStore(storage: Storage, b: bool, other: string)
    requires other != "true"
    ensures InitialTheme(storage[DarkModeKey := BoolToString(b)]).darkMode == b
    ensures !InitialTheme(storage - {DarkModeKey}).darkMode
    ensures !InitialTheme(storage[DarkModeKey := other]).darkMode
  {
    BoolStringRoundTrip(b);
  }

  /** A reload after a toggle starts with the flag the toggle produced. */
  lemma ReloadAfterToggle(t: ThemeState, storage: Storage)
    ensures InitialTheme(ToggleDarkMode(t, storage).1) == ToggleDarkMode(t, storage).0
  {
    BoolStringRoundTrip(!t.darkMode);
  }

  /** Toggling twice restores the flag, and the store then agrees with it. */
  lemma ToggleTwice(t: ThemeState, storage: Storage)
    ensures ToggleDarkMode(ToggleDarkMode(t, storage).0, ToggleDarkMode(t, storage).1).0 == t
    ensures InitialTheme(ToggleDarkMode(ToggleDarkMode(t, storage).0, ToggleDarkMode(t, storage).1).1) == t
  {
  }
}

=== FILE: user_detail.dfy ===
/** The detail view: the effect that looks the routed user up in the cached
    list and re-centres the map, and the choice between spinner, error,
    profile card and the "User not found!" message. */
module UserDetail {
  import opened Wrappers
  import opened Users
  import opened JsArrays
  import opened JsStrings
  import opened UserSlice

  /** Where the map is centred: the initial `[0, 0]`, or the point parsed
      from a user's `geo` strings (the parse itself is not modelled). */
  datatype MapCenter = Origin | AtGeo(geo: Geo)

  /** The view's local state: the selected user (`null`/`undefined` as
      `None`) and the map centre. */
  datatype DetailState = DetailState(user: Option<User>, mapCenter: MapCenter)

  /** `useState(null)` and `useState([0, 0])`. */
  const InitialDetail: DetailState := DetailState(None, Origin)

  /** What the view renders. */
  datatype DetailScreen = Spinner | ErrorMessage(message: string) | Profile(user: User, center: MapCenter) | NotFound

  /** `u.id === key`, where a `NaN` key (`None`) equals nothing. */
  predicate IdMatches(key: Option<int>, u: User) {
    key == Some(u.id)
  }

  /** Index `i` holds the first user whose id matches `key`. */
  ghost predicate FirstMatchAt(users: seq<User>, key: Option<int>, i: int) {
    && 0 <= i < |users|
    && IdMatches(key, users[i])
    && forall j :: 0 <= j < i ==> !IdMatches(key, users[j])
  }

  /** `users.find(u => u.id === key)`: the first user with that id, if any. */
  function FindById(users: seq<User>, key: Option<int>): (r: Option<User>)
    ensures r.Some? ==> IdMatches(key, r.value)
    ensures r.None? <==> forall i :: 0 <= i < |users| ==> !IdMatches(key, users[i])
    ensures r.Some? ==> exists i :: FirstMatchAt(users, key, i) && users[i] == r.value
  {
    if |users| == 0 then None
    else if IdMatches(key, users[0]) then Some(users[0])
    else
      var r := FindById(users[1..], key);
      assert forall i :: 1 <= i < |users| ==> users[i] == users[1..][i - 1];
      if r.Some? then FirstMatchShift(users, key, r.value); r
      else r
  }

  /** A first match in the tail is a first match in the whole list when the
      head does not match. */
  lemma FirstMatchShift(users: seq<User>, key: Option<int>, v: User)
    requires |users| > 0 && !IdMatches(key, users[0])
    requires exists i :: FirstMatchAt(users[1..], key, i) && users[1..][i] == v
    ensures exists i :: FirstMatchAt(users, key, i) && users[i] == v
  {
    var i :| FirstMatchAt(users[1..], key, i) && users[1..][i] == v;
    assert FirstMatchAt(users, key, i + 1);
  }

  /** `find` agrees with taking the head of `filter` on the same test. */
  lemma {:induction false} FindIsFirstOfFilter(users: seq<User>, key: Option<int>)
    ensures var matches := Filter(u => IdMatches(key, u), users);
      FindById(users, key) == if |matches| == 0 then None else Some(matches[0])
  {
    if |users| > 0 {
      var p := u => IdMatches(key, u);
      FindIsFirstOfFilter(users[1..], key);
      assert Filter(p, users) == (if p(users[0]) then [users[0]] else []) + Filter(p, users[1..]);
    }
  }

  /** A route id that does not parse (`NaN`) finds no one. */
  lemma UnparsableIdFindsNobody(users: seq<User>, routeId: string)
    requires ParseInt(routeId) == None
    ensures FindById(users, ParseInt(routeId)) == None
  {
  }

  /** The lookup effect, run whenever the list or the route id changes. With
      an empty list it does nothing. Otherwise it stores whatever `find`
      returned, and re-centres the map only when a user was found; a failed
      lookup leaves the previous centre in place. */
  function Resolve(d: DetailState, users: seq<User>, routeId: string): (r: DetailState)
    ensures |users| == 0 ==> r == d
    ensures |users| > 0 ==> r.user == FindById(users, ParseInt(routeId))
    ensures r.mapCenter != d.mapCenter ==> r.user.Some? && r.mapCenter == AtGeo(r.user.value.address.geo)
    ensures |users| > 0 && r.user.Some? ==> r.mapCenter == AtGeo(r.user.value.address.geo)
    ensures r.user.Some? ==> r.user.value in users || r == d
  {
    if |users| == 0 then d
    else
      var found := FindById(users, ParseInt(routeId));
      DetailState(found, if found.Some? then AtGeo(found.value.address.geo) else d.mapCenter)
  }

  /** Starting from the initial state the centre keeps its initial value
      unless a user is found, and then it is that user's location. */
  lemma CenterFollowsFoundUser(users: seq<User>, routeId: string)
    ensures var r := Resolve(InitialDetail, users, routeId);
      (r.mapCenter == Origin <==> r.user.None?) &&
      (r.user.Some? ==> r.mapCenter == AtGeo(r.user.value.address.geo))
  {
  }

  /** `Number.isSafeInteger`: the integers a Number holds exactly. */
  predicate SafeInteger(n: int) {
    -0x1F_FFFF_FFFF_FFFF <= n <= 0x1F_FFFF_FFFF_FFFF
  }

  /** No two list entries share an id. */
  predicate UniqueIds(users: seq<User>) {
    forall i, j :: 0 <= i < j < |users| ==> users[i].id != users[j].id
  }

  /** Following a card's link `/user/${user.id}` selects that very user.
      Ids are JavaScript Numbers, so only the safe-integer range is meaningful:
      there `${id}` is the plain decimal form. */
  lemma LinkSelectsUser(users: seq<User>, k: nat)
    requires k < |users| && UniqueIds(users)
    requires SafeInteger(users[k].id)
    ensures Resolve(InitialDetail, users, IntToString(users[k].id)).user == Some(users[k])
  {
    ParseIntOfDecimal(users[k].id);
    var r := FindById(users, Some(users[k].id));
    assert r.Some?;
    var i :| FirstMatchAt(users, Some(users[k].id), i) && users[i] == r.value;
    assert i == k;
  }

  /** `parseInt` ignores whatever follows the leading digits, so a route id
      such as `3abc` or `3.7` selects the user with id 3, as long as the text
      after the digits does not continue the number. */
  lemma TrailingTextSelectsUser(users: seq<User>, k: nat, rest: string)
    requires k < |users| && UniqueIds(users)
    requires SafeInteger(users[k].id)
    requires |rest| > 0 ==> !('0' <= rest[0] <= '9')
    requires users[k].id == 0 && |rest| > 0 ==> rest[0] != 'x' && rest[0] != 'X'
    ensures Resolve(InitialDetail, users, IntToString(users[k].id) + rest).user == Some(users[k])
  {
    ParseIntIgnoresRest(users[k].id, rest);
    var r := FindById(users, Some(users[k].id));
    assert r.Some?;
    var i :| FirstMatchAt(users, Some(users[k].id), i) && users[i] == r.value;
    assert i == k;
  }

  /** Render precedence: spinner while loading, then a truthy error, then
      the profile of the selected user, and "User not found!" otherwise. */
  function RenderDetail(s: UsersState, d: DetailState): (v: DetailScreen)
    ensures v.Spinner? <==> s.loading
    ensures v.ErrorMessage? <==> !s.loading && Truthy(s.error)
    ensures v.ErrorMessage? ==> Some(v.message) == s.error
    ensures v.Profile? <==> !s.loading && !Truthy(s.error) && d.user.Some?
    ensures v.Profile? ==> v.user == d.user.value && v.center == d.mapCenter
    ensures v.NotFound? <==> !s.loading && !Truthy(s.error) && d.user.None?
  {
    if s.loading then Spinner
    else if Truthy(s.error) then ErrorMessage(s.error.value)
    else if d.user.Some? then Profile(d.user.value, d.mapCenter)
    else NotFound
  }

  /** Once a fetch has succeeded with a non-empty list, the detail view shows
      a profile exactly when some listed user has the parsed route id, and
      that profile is centred on the user's location. */
  lemma DetailAfterFetch(s: UsersState, users: seq<User>, routeId: string)
    requires |users| > 0
    ensures var v := RenderDetail(FetchCycle(s, Responded(true, Parsed(users))),
                                  Resolve(InitialDetail, users, routeId));
      (v.Profile? <==> exists i :: 0 <= i < |users| && IdMatches(ParseInt(routeId), users[i])) &&
      (v.Profile? ==> v.user in users && IdMatches(ParseInt(routeId), v.user) &&
                      v.center == AtGeo(v.user.address.geo)) &&
      (!v.Profile? ==> v == NotFound)
  {
  }

  /** A refetch that fulfils with an empty list runs no lookup, so the
      view keeps showing whatever was selected before: the earlier profile,
      or "User not found!" when nothing was. */
  lemma EmptyRefetchKeepsSelection(s: UsersState, d: DetailState, routeId: string)
    ensures var v := RenderDetail(FetchCycle(s, Responded(true, Parsed([]))), Resolve(d, [], routeId));
      v == if d.user.Some? then Profile(d.user.value, d.mapCenter) else NotFound
  {
  }
}

=== FILE: user_slice.dfy ===
/** The `users` slice: the `getUsers` thunk's outcome mapping and the reducer
    for its three lifecycle actions. */
module UserSlice {
  import opened Wrappers
  import opened Users

  /** The message the thunk throws for a response whose status is not OK. */
  const FetchFailedMessage: string := "Failed to fetch users"

  /** The slice state. `error` is `None` for `null`. */
  datatype UsersState = UsersState(list: seq<User>, loading: bool, error: Option<string>)

  /** The actions the thunk dispatches. `Rejected` carries the message of the
      error that was thrown. */
  datatype UsersAction = Pending | Fulfilled(payload: seq<User>) | Rejected(message: string)

  /** What reading the response body produced. */
  datatype Body = Parsed(users: seq<User>) | Malformed(message: string)

  /** What the network request produced, as seen by the thunk. */
  datatype FetchOutcome = Responded(ok: bool, body: Body) | NetworkError(message: string)

  /** `{ list: [], loading: false, error: null }`. */
  const Initial: UsersState := UsersState([], false, None)

  /** The settling action the thunk dispatches for an outcome: a non-OK
      response rejects with the fixed message before the body is read; an OK
      response fulfils with the parsed body; anything thrown on the way
      rejects with its own message. */
  function Settle(outcome: FetchOutcome): (a: UsersAction)
    ensures a != Pending
    ensures outcome.Responded? && !outcome.ok ==> a == Rejected(FetchFailedMessage)
    ensures outcome.Responded? && outcome.ok && outcome.body.Parsed? ==> a == Fulfilled(outcome.body.users)
    ensures a.Fulfilled? ==> outcome.Responded? && outcome.ok
    ensures outcome.NetworkError? ==> a == Rejected(outcome.message)
    ensures outcome.Responded? && outcome.ok && outcome.body.Malformed? ==> a == Rejected(outcome.body.message)
  {
    match outcome
    case NetworkError(m) => Rejected(m)
    case Responded(ok, body) =>
      if !ok then Rejected(FetchFailedMessage)
      else match body
        case Parsed(users) => Fulfilled(users)
        case Malformed(m) => Rejected(m)
  }

  /** The reducer. Each case assigns only the fields it names. */
  function Reduce(s: UsersState, a: UsersAction): (r: UsersState)
    ensures r.loading <==> a.Pending?
    ensures !a.Fulfilled? ==> r.list == s.list
    ensures a.Fulfilled? ==> r.list == a.payload
    ensures a.Pending? ==> r.error == None
    ensures a.Fulfilled? ==> r.error == s.error
    ensures a.Rejected? ==> r.error == Some(a.message)
  {
    match a
    case Pending => s.(loading := true, error := None)
    case Fulfilled(payload) => s.(list := payload, loading := false)
    case Rejected(message) => s.(error := Some(message), loading := false)
  }

  /** One dispatch of `getUsers`: `pending`, then the settling action. */
  function FetchCycle(s: UsersState, outcome: FetchOutcome): (r: UsersState)
    ensures !r.loading
    ensures outcome.Responded? && outcome.ok && outcome.body.Parsed? ==>
      r == UsersState(outcome.body.users, false, None)
    ensures outcome.Responded? && !outcome.ok ==>
      r == UsersState(s.list, false, Some(FetchFailedMessage))
  {
    Reduce(Reduce(s, Pending), Settle(outcome))
  }

  /** Every action of a history, in dispatch order. */
  function ReduceAll(s: UsersState, history: seq<UsersAction>): UsersState
  {
    if |history| == 0 then s
    else Reduce(ReduceAll(s, history[..|history| - 1]), history[|history| - 1])
  }

  /** The payload of the latest `Fulfilled` action, if any. */
  function LatestPayload(history: seq<UsersAction>): Option<seq<User>>
  {
    if |history| == 0 then None
    else if history[|history| - 1].Fulfilled? then Some(history[|history| - 1].payload)
    else LatestPayload(history[..|history| - 1])
  }

  /** The error left by the latest `Pending` or `Rejected` action: `Pending`
      clears it, `Rejected` sets it, and `Fulfilled` does not touch it. `None`
      when neither occurs. */
  function LatestErrorWrite(history: seq<UsersAction>): Option<Option<string>>
  {
    if |history| == 0 then None
    else match history[|history| - 1]
      case Pending => Some(None)
      case Rejected(m) => Some(Some(m))
      case Fulfilled(_) => LatestErrorWrite(history[..|history| - 1])
  }

  /** After any history, `list` is the latest payload (or the starting list),
      `error` is what the latest `Pending`/`Rejected` left (or the starting
      error), and `loading` holds exactly when the last action is `Pending`. */
  lemma {:induction false} ReduceAllState(s: UsersState, history: seq<UsersAction>)
    ensures ReduceAll(s, history).list == LatestPayload(history).GetOr(s.list)
    ensures ReduceAll(s, history).error == LatestErrorWrite(history).GetOr(s.error)
    ensures ReduceAll(s, history).loading <==>
      if |history| == 0 then s.loading else history[|history| - 1].Pending?
  {
    if |history| > 0 {
      ReduceAllState(s, history[..|history| - 1]);
    }
  }

  /** Starting from the initial state, the list only ever holds a payload the
      server sent, and an error only ever holds a message some rejection
      carried. */
  lemma FromInitial(history: seq<UsersAction>)
    ensures ReduceAll(Initial, history).list == [] ||
      exists i :: 0 <= i < |history| && history[i] == Fulfilled(ReduceAll(Initial, history).list)
    ensures ReduceAll(Initial, history).error.Some? ==>
      exists i :: 0 <= i < |history| && history[i] == Rejected(ReduceAll(Initial, history).error.value)
  {
    ReduceAllState(Initial, history);
    LatestPayloadSent(history);
    LatestErrorSent(history);
  }

  lemma {:induction false} LatestPayloadSent(history: seq<UsersAction>)
    ensures LatestPayload(history).Some? ==>
      exists i :: 0 <= i < |history| && history[i] == Fulfilled(LatestPayload(history).value)
  {
    if |history| > 0 && !history[|history| - 1].Fulfilled? {
      var h := history[..|history| - 1];
      LatestPayloadSent(h);
      if LatestPayload(h).Some? {
        var i :| 0 <= i < |h| && h[i] == Fulfilled(LatestPayload(h).value);
        assert history[i] == h[i];
      }
    }
  }

  lemma {:induction false} LatestErrorSent(history: seq<UsersAction>)
    ensures LatestErrorWrite(history).Some? && LatestErrorWrite(history).value.Some? ==>
      exists i :: 0 <= i < |history| && history[i] == Rejected(LatestErrorWrite(history).value.value)
  {
    if |history| > 0 && history[|history| - 1].Fulfilled? {
      var h := history[..|history| - 1];
      LatestErrorSent(h);
      if LatestErrorWrite(h).Some? && LatestErrorWrite(h).value.Some? {
        var i :| 0 <= i < |h| && h[i] == Rejected(LatestErrorWrite(h).value.value);
        assert history[i] == h[i];
      }
    }
  }
}

=== FILE: users.dfy ===
/** The directory entry as the remote source returns it. Only `id`, `name`
    and `address.geo` take part in any logic; the other fields are carried
    for display. */
module Users {

  /** Coordinates as the source sends them: numeric strings. */
  datatype Geo = Geo(lat: string, lng: string)

  datatype Address = Address(street: string, suite: string, city: string, zipcode: string, geo: Geo)

  datatype Company = Company(name: string, catchPhrase: string, bs: string)

  datatype User = User(
    id: int,
    name: string,
    username: string,
    email: string,
    phone: string,
    website: string,
    address: Address,
    company: Company
  )
}

=== FILE: wrappers.dfy ===
/** The optional value the model uses wherever JavaScript may produce no value. */
module Wrappers {

  /** A value that may be absent: JavaScript's `null`, `undefined` and `NaN`
      outcomes are all modelled as `None`. */
  datatype Option<+T> = None | Some(value: T) {

    /** The wrapped value, or `default` when absent. */
    function GetOr(default: T): T {
      match this
      case Some(v) => v
      case None => default
    }
  }
}
